=== FILE: README.md ===
# Rally pose challenges in Dafny

A model of the game logic of Rally, a browser-based volleyball pose
trainer. A camera feed is classified frame by frame into one of three
poses (pass, spike, block). The user must *hold* the requested pose,
meaning a matching label with confidence strictly above 0.7, for
2000 ms before a five-tick countdown runs out.

The model covers four parts of `js/script.js`:

- **Hold tracker** (`Hold`, shared by both flows). A qualifying frame
  starts a hold or extends it. A non-qualifying frame breaks it. A
  qualifying frame at least `HOLD_DURATION` after the hold began
  completes it.
- **Practice flow** (`Practice`). There is one challenge per practice
  scene. Success marks the pose completed in the training progress and
  offers the next scene. Expiry on the fifth tick shows the pose's tip.
- **Training progress** (`Training`). Three completion flags decide two
  things: which hub tiles are unlocked, and which tile carries the
  "active" badge.
- **Match** (`MatchMode`). The player and a simulated opponent race to
  three points. Each point is a challenge for a randomly drawn pose that
  never repeats the previous one. A hold scores for the player, and an
  expired countdown scores for the opponent.

Each flow is a pure step function over an immutable record, driven by
explicit events:

- a top-1 classification result stamped with `Date.now()`;
- a one-second countdown tick;
- a scene entry, button press or end-of-pause callback.

`Math.random()` is an input of type `UnitInterval` (a real in [0, 1)), and the
index is `Floor(u * n)`, as in the source. The wall clock is a positive
millisecond count, so the source's truthiness test `!poseHoldStartTime`
is the same as "no hold in progress".

The source keeps these flags as globals; the model keeps them as phases:

- Practice `isCheckingPose` is `Practice.Phase.Running`. The countdown
  interval is installed and cleared together with that flag.
- Match `isMatchActive` is `Playing` or `Paused`. `isCheckingPose` is
  `Playing`. `Paused` is the 1500 ms pause after a point, which a
  `Resume` event ends.

Two facts about the code shape the model:

- The countdown is five ticks of a one-second interval. The code never
  compares the clock against a deadline.
- The code records one used pose per point played. A match won, lost, won,
  won therefore ends with four poses in its history.

## Model

| member | source | states |
|---|---|---|
| Poses.AcceptedLabels | js/script.js:342 | a target accepts exactly the labels that spell its name in any mix of upper and lower case |
| Poses.ThresholdIsStrict | js/script.js:342 | confidence exactly 0.7 never qualifies; the pose's own name at 0.71 does |
| Poses.QualifiesForOnePose | js/script.js:737 | a classification result qualifies for at most one of the three poses |
| Poses.Draw | js/script.js:647 | `floor(random * n)` is always a valid index into a pool of n candidates |
| Poses.DrawInterval | js/script.js:647-650 | index k is drawn exactly for random values in [k/n, (k+1)/n), an interval of width 1/n, so each candidate is equally likely |
| Poses.DrawReaches | js/script.js:650 | every index below n is drawn by some random value |
| Hold.FirstFrameNeverCompletes | js/script.js:344-347 | the first qualifying frame only records the hold start; no single frame completes a hold |
| Hold.Streak | js/script.js:342-364 | the streak length counts exactly the trailing qualifying frames, and the frame before the streak does not qualify |
| Hold.ScanFromFresh | js/script.js:344-364 | from a fresh challenge, the hold start is the time of the first frame of the current qualifying streak, and it is unset when the last frame did not qualify |
| Hold.CompletesIffStreak | js/script.js:342-357 | a frame completes the hold iff it qualifies and the qualifying streak just before it began at least 2000 ms earlier |
| Hold.BreakResets | js/script.js:359-364 | after a non-qualifying frame, tracking restarts from zero whatever came before; a broken hold never resumes |
| Training.MarkCompleted | js/script.js:228-231 | marking a pose sets its flag and leaves the other two flags unchanged |
| Training.MarkExtends | js/script.js:10-16 | marking only adds completions and is idempotent; no path clears a flag |
| Training.ActivePose | js/script.js:118-124 | the badge pose is unlocked, and it is the furthest unlocked pose in training order |
| Training.UnlockedIffPrerequisiteDone | js/script.js:133-156 | pass is always open; every other tile opens iff the pose just before it in training order is completed |
| Training.UnlockMonotone | js/script.js:129-156 | more progress never locks a tile and never moves the badge backwards |
| Training.CompletingOpensNext | js/script.js:138-155 | completing a pose opens the tile of the next pose |
| Practice.Step | js/script.js:329-438 | a start sets the given pose, a full five-tick countdown and no hold, and keeps the progress; progress only grows; a frame that completes a running challenge always marks that challenge's pose; progress changes on no other event; outside a running challenge only a new start has any effect |
| Practice.Emit | js/script.js:411-453 | the feedback matches the transition: the next-scene offer appears exactly on success and names the scene after the pose; the tip appears exactly on expiry and is the pose's own tip |
| Practice.TerminalInert | js/script.js:335-336 | once a challenge has succeeded or expired, results and ticks change nothing until it is started again |
| Practice.RunWhileRunning | js/script.js:387-413 | while a challenge runs, its hold start is the hold tracker's reading of the frames so far, and the countdown has lost exactly one per tick without reaching zero |
| Practice.SuccessIffStreak | js/script.js:335-364 | a fresh challenge succeeds on an event iff that event is a qualifying frame ending a streak that spans at least 2000 ms |
| Practice.ExpiryOnFifthTick | js/script.js:387-413 | a fresh challenge sees at most four ticks while running, and it expires exactly on the fifth tick |
| Practice.ProgressMonotone | js/script.js:228-231 | along any sequence of events no completed pose is forgotten |
| Practice.PassHeldScenario | js/script.js:342-356 | pass held at 0.9 confidence for 2100 ms completes the challenge, marks pass completed and offers the spike lesson |
| Practice.WrongPoseScenario | js/script.js:398-425 | block shown throughout a spike challenge leaves it running with one second left after four ticks; the fifth tick expires it and shows the spike tip |
| MatchMode.Without | js/script.js:646 | filtering keeps exactly the poses that differ from the excluded one |
| MatchMode.Pool | js/script.js:640-651 | the pool is all three poses at first; afterwards it is the two poses other than the last one |
| MatchMode.Pick | js/script.js:640-654 | the drawn pose comes from the pool and never equals the previous pose |
| MatchMode.PickReachesPool | js/script.js:644-651 | every candidate in the pool can be drawn |
| MatchMode.Step | js/script.js:700-762 | a point is decided only by a frame (player) or a tick (opponent) during a pose; it adds one to exactly one score and leaves the history alone; no other event except a start moves a score |
| MatchMode.StepKeepsInv | js/script.js:633-762 | every event keeps the invariant: scores are at most 3, the history has one entry per point played plus the current pose, no pose follows itself, and an ended match has exactly one side on 3 |
| MatchMode.Reachable | js/script.js:607-797 | from the initial state: scores never exceed 3; no immediate repeats; at most five poses drawn; after each resolved point the history length is player + opponent; no draw |
| MatchMode.WinnerIff | js/script.js:797-832 | the reported winner is the player iff the player has 3 points, and the opponent iff the opponent has 3 |
| MatchMode.ResumeEndsIff | js/script.js:633-654 | after a point the match ends iff either score is 3; otherwise the pose drawn from the pool with the given random value (`Pick`) is appended and started with a full five-tick countdown and no hold; it differs from the last one |
| MatchMode.StartResets | js/script.js:607-626 | starting clears both scores and the history, then records and starts the one pose drawn from all three with the given random value (`Pick`), with a full countdown and no hold |
| MatchMode.InertOutsidePose | js/script.js:730-731 | outside a running pose (not started, paused, or over), results and ticks change nothing |
| MatchMode.OverIsInert | js/script.js:786-789 | a finished match ignores everything except a new start |
| MatchMode.RunWhilePlaying | js/script.js:689-754 | while a pose runs, the scores, history and pose stay put; the hold start follows the hold tracker; the countdown loses exactly one per tick without reaching zero |
| MatchMode.PlayerPointIffStreak | js/script.js:730-762 | on a fresh pose, the player scores on an event iff it is a qualifying frame ending a streak that spans at least 2000 ms |
| MatchMode.OpponentPointOnFifthTick | js/script.js:689-713 | on a fresh pose, the opponent scores exactly on the fifth tick, and the player's score stays put |
| MatchMode.PlayerWinsScenario | js/script.js:607-801 | points won, lost, won, won: the player wins 3 to 1, and the history is pass, spike, pass, spike |
| Timers.StaleIntervalEndsNewChallenge | js/script.js:369-413 | as written: re-entering practice mid-challenge leaves the old interval live; with the firings in the order one-second timers produce (old, new, old), the old interval reaches zero, cancels the new challenge's interval at four and switches checking off, and stays live itself |
| Timers.CorrectedKeepsOneInterval | js/script.js:398-413 | if each start cancels the previous interval, only the current challenge's interval is ever live, and a stale firing changes nothing |
| Timers.CorrectedKeepsNewChallenge | js/script.js:398-413 | with that correction, the same firings leave the new challenge running, its countdown at four after its own single firing |
| Timers.FireMatch | js/script.js:700-727 | a match interval fires as a practice one does, and gives the opponent exactly one point exactly when a live interval reaches zero |
| Timers.NextPoseClock | js/script.js:633-637 | when a pause ends the match completes (checking off) iff the opponent has three points; the score is untouched |
| Timers.StaleMatchIntervalOverscores | js/script.js:607-727 | as written: a replay while a pose runs leaves the old interval live; it cancels the new match's pose and then scores every second, so the opponent reaches 4 points with no pose of the new match running out |
| Timers.CorrectedReplayKeepsOneInterval | js/script.js:700-708 | if each replay cancels the running interval, only the current pose's interval is live, a stale firing changes nothing, and only the current pose's expiry scores |
| Timers.CorrectedReplayKeepsScore | js/script.js:607-626 | with that correction, the same firings leave the new match's first pose running at four with the opponent on zero |

## Left out

- Rendering is not modelled: DOM queries, status-bar and results text, scoreboard dots, buttons written as `innerHTML`, GSAP/Flip/ScrollTrigger animations and confetti. Only the tip and next-scene strings appear, as lookup tables. The match pose hints are display text and are left out.
- External calls are not modelled: ml5 model loading, `bodyPose.detectStart`, `classifier.classify` and `getUserMedia`. A frame event stands for a callback that found a body and got at least one result, and it carries the top result.
- `drawVideo` and the progress-ring geometry are not modelled; they are canvas and floating-point drawing code.
- Timers are not modelled. The one-second delay before a practice challenge starts and the 1500 ms pauses in the match become explicit `Begin` and `Resume` events. The one-second interval becomes `Tick`.
- The single `isCheckingPose` flag and `currentPoseType` are shared between the practice and match callbacks; the model treats the two flows as separate machines.
- Poses.Lower: only ASCII letters are lowered. JavaScript's `toLowerCase` maps more characters (for example, the Kelvin sign becomes `k`). The classifier's labels are the three ASCII names.
- Confidence is a `real`, so the threshold is exactly 0.7 rather than the nearest double.
- The success check reads `Date.now()` twice (lines 349 and 353). The model uses one timestamp per frame.
- After a practice success, the source leaves `poseHoldStartTime` set. The model drops it, because every new start resets it before it is read.
- Practice.Step: `Begin` replaces a running challenge outright. The source's leftover interval in that case is covered by the `Timers` finding.
- Practice.Step: entering a scene and restarting the challenge are one `Begin` event here. In the source, `showScene` sets `currentPoseType` as soon as the scene opens (js/script.js:78-85), and the restart follows 1000 ms later (js/script.js:316). In that second the old challenge keeps its countdown and hold start, but frames are judged against the new pose, and a completion marks the new pose (js/script.js:338, 438). The model keeps a running challenge's target fixed, so it does not promise anything about frames in that window.
- MatchMode.Step: `Start` is accepted only before the first match and after a match has ended. From the second match on, the source leaves the replay button visible and clickable during play and during the pause after a point (js/script.js:805-831; `startMatch` at js/script.js:607-626 does not hide it). A restart at that moment is not modelled here, because the source then leaves the old countdown interval running. That interval breaks the three-point bound; the `Timers` match finding covers it. Its other effect is that a pause already pending starts a second pose (js/script.js:722-724, 781-783), and that is not modelled.
- Switching scenes while a match is running is not modelled, because the match timers keep running in the background.
- Timers.NextPoseClock: the match clock tracks only the opponent's score. The player's score also ends a match, but the overscoring happens without it.
- Scene navigation (`showScene`, indicators) and the "Try again" and "Practice again" buttons appear only as the `Begin` event.
- `updateMatchScore`, `matchCurrentPoseIndex` and `matchPoseHoldTimeout` are not modelled: the code never meaningfully uses them.

## Findings

| source | as written | input that shows it | evidently intended | confidence | as-written member | corrected member |
|---|---|---|---|---|---|---|
| js/script.js:398-413 | `startSinglePose` installs a new countdown interval without clearing the running one. Each interval clears whichever interval the shared `countdownInterval` handle names. | Enter a practice scene. Between the challenge's second and third ticks, enter a practice scene again. The new challenge starts one second later, after the stale interval's third tick. The stale interval fires once more, then the new one fires once, then the stale interval reaches zero. It cancels the new challenge's interval and sets `isCheckingPose` to false. It stays live itself and repeats this every second. | Starting a challenge cancels the previous interval, so only the current challenge's own countdown can end it. | medium; not executed | Timers.StaleIntervalEndsNewChallenge | Timers.CorrectedKeepsOneInterval |
| js/script.js:700-708 | `startNextMatchPose` installs a new match countdown interval without clearing the running one. Each interval clears whichever interval the shared `matchCountdownInterval` handle names. An interval that has reached zero stays live and scores for the opponent on every later firing. | In a replayed match, press "Play another match" between the first pose's third and fourth seconds. The stale interval reaches zero before the new pose's second tick and cancels the new pose. It then scores for the opponent every second and cancels each pose the pause starts. The opponent of the new match reaches 4 points without any of its poses running out. | Replaying a match cancels the running interval, so only the current pose's own countdown can score for the opponent. | medium; not executed | Timers.StaleMatchIntervalOverscores | Timers.CorrectedReplayKeepsOneInterval |

=== FILE: hold.dfy ===
/**
  The hold tracker shared by the practice and the match checks: it turns
  a stream of classification results into "hold started", "still holding",
  "hold broken" and "held long enough".
 */
module Hold {
  import opened Poses

  /** What one classification result does to the hold. */
  datatype Verdict =
    | Idle                    // not the target, and no hold was in progress
    | Started                 // first qualifying frame: the hold starts now
    | Progress(elapsed: int)  // still holding, not yet long enough
    | Complete                // held for at least HOLD_DURATION
    | Broken                  // a hold was in progress and this frame ends it

  /** The verdict on a frame whose qualification is `q`, arriving at `now`. */
  function Judge(start: Option<Millis>, q: bool, now: Millis): Verdict {
    if q then
      if start.None? then Started
      else if now - start.value >= HOLD_DURATION then Complete
      else Progress(now - start.value)
    else if start.Some? then Broken
    else Idle
  }

  /** The hold start after a frame that does not complete the hold. */
  function Next(start: Option<Millis>, q: bool, now: Millis): Option<Millis> {
    if !q then None
    else if start.None? then Some(now)
    else start
  }

  /** The first qualifying frame only starts the hold: a single frame never completes it. */
  lemma FirstFrameNeverCompletes(q: bool, now: Millis)
    ensures Judge(None, q, now) != Complete
    ensures q ==> Next(None, q, now) == Some(now)
  {
  }

  /** The hold start after a stream of frames judged against `target`. */
  function Scan(start: Option<Millis>, cs: seq<Classification>, target: Pose): Option<Millis>
    decreases |cs|
  {
    if |cs| == 0 then start
    else Scan(Next(start, Qualifies(cs[0], target), cs[0].now), cs[1..], target)
  }

  /** The number of qualifying frames at the end of `cs`, that is, the length of the current streak. */
  function Streak(cs: seq<Classification>, target: Pose): (n: nat)
    ensures n <= |cs|
    ensures forall i :: |cs| - n <= i < |cs| ==> Qualifies(cs[i], target)
    ensures n < |cs| ==> !Qualifies(cs[|cs| - n - 1], target)
  {
    if |cs| == 0 || !Qualifies(cs[|cs| - 1], target) then 0
    else Streak(cs[..|cs| - 1], target) + 1
  }

  lemma {:induction false} ScanAppend(start: Option<Millis>, a: seq<Classification>, b: seq<Classification>, target: Pose)
    ensures Scan(start, a + b, target) == Scan(Scan(start, a, target), b, target)
    decreases |a|
  {
    if |a| > 0 {
      assert (a + b)[0] == a[0];
      assert (a + b)[1..] == a[1..] + b;
      ScanAppend(Next(start, Qualifies(a[0], target), a[0].now), a[1..], b, target);
    } else {
      assert a + b == b;
    }
  }

  /**
    From a fresh challenge, the hold start is the time of the first frame of
    the current qualifying streak, and unset when there is no streak.
   */
  lemma {:induction false} ScanFromFresh(cs: seq<Classification>, target: Pose)
    ensures Scan(None, cs, target) ==
      if Streak(cs, target) == 0 then None else Some(cs[|cs| - Streak(cs, target)].now)
    decreases |cs|
  {
    if |cs| > 0 {
      var init := cs[..|cs| - 1];
      var last := cs[|cs| - 1];
      assert cs == init + [last];
      ScanAppend(None, init, [last], target);
      ScanFromFresh(init, target);
      assert Scan(None, cs, target) == Next(Scan(None, init, target), Qualifies(last, target), last.now);
    }
  }

  /**
    A frame completes the hold exactly when it qualifies and the streak of
    qualifying frames just before it began at least HOLD_DURATION earlier.
   */
  lemma CompletesIffStreak(cs: seq<Classification>, c: Classification, target: Pose)
    ensures Judge(Scan(None, cs, target), Qualifies(c, target), c.now) == Complete
      <==> && Qualifies(c, target)
           && Streak(cs, target) > 0
           && c.now - cs[|cs| - Streak(cs, target)].now >= HOLD_DURATION
  {
    ScanFromFresh(cs, target);
  }

  /**
    A non-qualifying frame resets the hold: whatever came before it, the
    frames after it are tracked as if the challenge had just started.
   */
  lemma BreakResets(start: Option<Millis>, before: seq<Classification>, breaker: Classification,
                    after: seq<Classification>, target: Pose)
    requires !Qualifies(breaker, target)
    ensures Scan(start, before + [breaker] + after, target) == Scan(None, after, target)
  {
    ScanAppend(start, before + [breaker], after, target);
    ScanAppend(start, before, [breaker], target);
  }
}

=== FILE: match.dfy ===
/**
  The match: a first-to-three race between the player and a simulated
  opponent. Each point is one timed hold challenge for a randomly drawn
  pose that never repeats the previous one; holding the pose scores for the
  player, letting the countdown run out scores for the opponent.
 */
module MatchMode {
  import opened Poses
  import Hold

  /**
    Playing: a pose challenge is running and the pose checks are on.
    Paused: a point has just been decided; the next pose (or the end of the
    match) follows after a short pause.
   */
  datatype Phase =
    | NotStarted
    | Playing(pose: Pose, countdown: int, holdStart: Option<Millis>)
    | Paused
    | Over

  /** The scores, the poses drawn so far, and the phase. */
  datatype Match = Match(player: nat, opponent: nat, used: seq<Pose>, phase: Phase)

  datatype Event =
    | Start(u: UnitInterval)                 // "start" or "play again", with the first random draw
    | Frame(result: Classification)  // the top-1 result for one video frame
    | Tick                           // the one-second countdown interval fires
    | Resume(u: UnitInterval)                // the pause after a point ends, with the next random draw

  datatype Side = Player | Opponent

  const Initial: Match := Match(0, 0, [], NotStarted)

  function Last(s: seq<Pose>): Pose
    requires |s| > 0
  {
    s[|s| - 1]
  }

  /** `ps` with every occurrence of `x` filtered out, order kept. */
  function Without(ps: seq<Pose>, x: Pose): (r: seq<Pose>)
    ensures forall q :: q in r <==> q in ps && q != x
    ensures |r| <= |ps|
    decreases |ps|
  {
    if |ps| == 0 then []
    else (if ps[0] == x then [] else [ps[0]]) + Without(ps[1..], x)
  }

  lemma WithoutOfAllPoses(x: Pose)
    ensures |Without(MatchPoses, x)| == 2
    ensures Without(MatchPoses, x) ==
      match x
      case Pass => [Spike, Block]
      case Spike => [Pass, Block]
      case Block => [Pass, Spike]
  {
    var ps := MatchPoses;
    assert ps[1..] == [Spike, Block];
    assert ps[1..][1..] == [Block];
    assert ps[1..][1..][1..] == [];
  }

  /** The candidates for the next pose: all three at first, afterwards the two that differ from the last one. */
  function Pool(used: seq<Pose>): (r: seq<Pose>)
    ensures |used| == 0 ==> r == MatchPoses
    ensures |used| > 0 ==> |r| == 2 && Last(used) !in r
    ensures |used| > 0 ==> forall q :: q != Last(used) ==> q in r
  {
    if |used| == 0 then MatchPoses
    else
      WithoutOfAllPoses(Last(used));
      Without(MatchPoses, Last(used))
  }

  /** The pose drawn with random value `u`; it never repeats the previous pose. */
  function Pick(used: seq<Pose>, u: UnitInterval): (p: Pose)
    ensures p in Pool(used)
    ensures |used| > 0 ==> p != Last(used)
  {
    var pool := Pool(used);
    pool[Draw(u, |pool|)]
  }

  /** Every candidate of the pool is drawn by some random value. */
  lemma PickReachesPool(used: seq<Pose>, q: Pose)
    requires q in Pool(used)
    ensures exists u: UnitInterval :: Pick(used, u) == q
  {
    var pool := Pool(used);
    var k :| 0 <= k < |pool| && pool[k] == q;
    DrawReaches(|pool|, k);
    var u: UnitInterval :| Draw(u, |pool|) == k;
    assert Pick(used, u) == q;
  }

  /** Ends the match once either side has three points; otherwise draws and starts the next pose. */
  function NextPose(m: Match, u: UnitInterval): Match {
    if m.player >= TOTAL_POSES || m.opponent >= TOTAL_POSES then m.(phase := Over)
    else
      var p := Pick(m.used, u);
      m.(used := m.used + [p], phase := Playing(p, COUNTDOWN, None))
  }

  /** Both scores and the history are cleared before the first pose is drawn. */
  function StartMatch(u: UnitInterval): Match {
    NextPose(Match(0, 0, [], NotStarted), u)
  }

  function OnFrame(m: Match, c: Classification): Match
    requires m.phase.Playing?
  {
    var q := Qualifies(c, m.phase.pose);
    if Hold.Judge(m.phase.holdStart, q, c.now) == Hold.Complete then
      m.(player := m.player + 1, phase := Paused)
    else
      m.(phase := m.phase.(holdStart := Hold.Next(m.phase.holdStart, q, c.now)))
  }

  function OnTick(m: Match): Match
    requires m.phase.Playing?
  {
    var remaining := m.phase.countdown - 1;
    if remaining <= 0 then m.(opponent := m.opponent + 1, phase := Paused)
    else m.(phase := m.phase.(countdown := remaining))
  }

  /**
    One event. A point is decided only by a frame (for the player) or a
    tick (for the opponent) during a pose, and it adds exactly one to
    exactly one score without touching the history; no other event except
    a new start moves a score.
   */
  function Step(m: Match, e: Event): (r: Match)
    ensures m.phase.Playing? && r.phase.Paused? ==>
      && r.used == m.used
      && (e.Frame? ==> r.player == m.player + 1 && r.opponent == m.opponent)
      && (e.Tick? ==> r.player == m.player && r.opponent == m.opponent + 1)
      && (e.Frame? || e.Tick?)
    ensures !e.Start? && !(m.phase.Playing? && r.phase.Paused?) ==>
      r.player == m.player && r.opponent == m.opponent
    ensures !e.Start? && !m.phase.Playing? && !m.phase.Paused? ==> r == m
  {
    match e
    case Start(u) => if m.phase.NotStarted? || m.phase.Over? then StartMatch(u) else m
    case Frame(c) => if m.phase.Playing? then OnFrame(m, c) else m
    case Tick => if m.phase.Playing? then OnTick(m) else m
    case Resume(u) => if m.phase.Paused? then NextPose(m, u) else m
  }

  /** The side that won, once the match is over; the player wins exactly with three points. */
  function Winner(m: Match): Option<Side> {
    if !m.phase.Over? then None
    else if m.player == TOTAL_POSES then Some(Player)
    else Some(Opponent)
  }

  predicate NoImmediateRepeat(s: seq<Pose>) {
    forall i :: 0 < i < |s| ==> s[i] != s[i - 1]
  }

  /** What holds of every match the controller can reach. */
  predicate Inv(m: Match) {
    && m.player <= TOTAL_POSES && m.opponent <= TOTAL_POSES
    && NoImmediateRepeat(m.used)
    && match m.phase
       case NotStarted => m.player == 0 && m.opponent == 0 && m.used == []
       case Playing(p, c, _) =>
         && m.player < TOTAL_POSES && m.opponent < TOTAL_POSES
         && |m.used| == m.player + m.opponent + 1 && Last(m.used) == p
         && 1 <= c <= COUNTDOWN
       case Paused =>
         && |m.used| == m.player + m.opponent > 0
         && !(m.player == TOTAL_POSES && m.opponent == TOTAL_POSES)
       case Over =>
         && |m.used| == m.player + m.opponent
         && (m.player == TOTAL_POSES) != (m.opponent == TOTAL_POSES)
  }

  lemma AppendKeepsNoRepeat(s: seq<Pose>, p: Pose)
    requires NoImmediateRepeat(s)
    requires |s| > 0 ==> p != Last(s)
    ensures NoImmediateRepeat(s + [p])
  {
    var t := s + [p];
    forall i | 0 < i < |t| ensures t[i] != t[i - 1] {
      if i < |s| {
        assert t[i] == s[i] && t[i - 1] == s[i - 1];
      }
    }
  }

  lemma NextPoseKeepsInv(m: Match, u: UnitInterval)
    requires Inv(m) && (m.phase.Paused? || m == Match(0, 0, [], NotStarted))
    ensures Inv(NextPose(m, u))
  {
    if !(m.player >= TOTAL_POSES || m.opponent >= TOTAL_POSES) {
      AppendKeepsNoRepeat(m.used, Pick(m.used, u));
    }
  }

  /** Every event keeps the invariant. */
  lemma StepKeepsInv(m: Match, e: Event)
    requires Inv(m)
    ensures Inv(Step(m, e))
  {
    match e
    case Start(u) =>
      if m.phase.NotStarted? || m.phase.Over? {
        NextPoseKeepsInv(Match(0, 0, [], NotStarted), u);
      }
    case Frame(c) =>
    case Tick =>
    case Resume(u) =>
      if m.phase.Paused? {
        NextPoseKeepsInv(m, u);
      }
  }

  function Run(m: Match, es: seq<Event>): Match
    decreases |es|
  {
    if |es| == 0 then m else Run(Step(m, es[0]), es[1..])
  }

  lemma {:induction false} RunKeepsInv(m: Match, es: seq<Event>)
    requires Inv(m)
    ensures Inv(Run(m, es))
    decreases |es|
  {
    if |es| > 0 {
      StepKeepsInv(m, es[0]);
      RunKeepsInv(Step(m, es[0]), es[1..]);
    }
  }

  /**
    Along any sequence of events: neither score exceeds three, a match that
    is over has exactly one side on three, at most five poses are drawn,
    one per point, and no pose follows itself.
   */
  lemma Reachable(es: seq<Event>)
    ensures var m := Run(Initial, es);
      && m.player <= TOTAL_POSES && m.opponent <= TOTAL_POSES
      && NoImmediateRepeat(m.used)
      && |m.used| <= 2 * TOTAL_POSES - 1
      && (m.phase.Paused? || m.phase.Over? ==> |m.used| == m.player + m.opponent)
      && (m.phase.Over? ==> (m.player == TOTAL_POSES) != (m.opponent == TOTAL_POSES))
  {
    RunKeepsInv(Initial, es);
  }

  /** The reported winner agrees with the scores: the player wins iff they reached three, and there is no draw. */
  lemma WinnerIff(m: Match)
    requires Inv(m) && m.phase.Over?
    ensures Winner(m) == Some(Player) <==> m.player == TOTAL_POSES
    ensures Winner(m) == Some(Opponent) <==> m.opponent == TOTAL_POSES
  {
  }

  /** After a pause the match ends exactly when one side has three points, and otherwise a new pose starts. */
  lemma ResumeEndsIff(m: Match, u: UnitInterval)
    requires Inv(m) && m.phase.Paused?
    ensures Step(m, Resume(u)).phase.Over? <==> m.player == TOTAL_POSES || m.opponent == TOTAL_POSES
    ensures Step(m, Resume(u)).phase.Playing? <==> m.player < TOTAL_POSES && m.opponent < TOTAL_POSES
    ensures Step(m, Resume(u)).phase.Playing? ==>
      && Step(m, Resume(u)).used == m.used + [Step(m, Resume(u)).phase.pose]
      && Step(m, Resume(u)).phase.pose == Pick(m.used, u)
      && Step(m, Resume(u)).phase.pose != Last(m.used)
      && Step(m, Resume(u)).phase.countdown == COUNTDOWN
      && Step(m, Resume(u)).phase.holdStart.None?
  {
  }

  /** Starting (or restarting) clears both scores and the history, then draws the first pose. */
  lemma StartResets(m: Match, u: UnitInterval)
    requires m.phase.NotStarted? || m.phase.Over?
    ensures var r := Step(m, Start(u));
      && r.player == 0 && r.opponent == 0
      && r.used == [Pick([], u)]
      && r.phase == Playing(r.used[0], COUNTDOWN, None)
  {
  }

  predicate Quiet(es: seq<Event>) {
    forall i :: 0 <= i < |es| ==> es[i].Frame? || es[i].Tick?
  }

  function FramesOf(es: seq<Event>): seq<Classification>
    decreases |es|
  {
    if |es| == 0 then []
    else (if es[0].Frame? then [es[0].result] else []) + FramesOf(es[1..])
  }

  function TickCount(es: seq<Event>): nat
    decreases |es|
  {
    if |es| == 0 then 0
    else (if es[0].Tick? then 1 else 0) + TickCount(es[1..])
  }

  lemma QuietTail(es: seq<Event>)
    requires |es| > 0 && Quiet(es)
    ensures Quiet(es[1..])
    ensures es[0].Frame? || es[0].Tick?
  {
    forall i | 0 <= i < |es[1..]| ensures es[1..][i].Frame? || es[1..][i].Tick? {
      assert es[1..][i] == es[i + 1];
    }
  }

  /** Outside a pose, pose results and ticks change nothing: paused, finished and unstarted matches are inert. */
  lemma {:induction false} InertOutsidePose(m: Match, es: seq<Event>)
    requires !m.phase.Playing?
    requires Quiet(es)
    ensures Run(m, es) == m
    decreases |es|
  {
    if |es| > 0 {
      QuietTail(es);
      InertOutsidePose(m, es[1..]);
    }
  }

  /** A finished match ignores everything but a new start. */
  lemma {:induction false} OverIsInert(m: Match, es: seq<Event>)
    requires m.phase.Over?
    requires forall i :: 0 <= i < |es| ==> !es[i].Start?
    ensures Run(m, es) == m
    decreases |es|
  {
    if |es| > 0 {
      assert !es[0].Start?;
      OverIsInert(m, es[1..]);
    }
  }

  /**
    While a pose keeps running, the scores, the history and the pose stay
    put, the hold start is the hold tracker's reading of the frames so far,
    and the countdown has lost exactly one per tick without reaching zero.
   */
  lemma {:induction false} RunWhilePlaying(m: Match, es: seq<Event>)
    requires m.phase.Playing? && m.phase.countdown >= 1
    requires Quiet(es)
    requires Run(m, es).phase.Playing?
    ensures Run(m, es).player == m.player && Run(m, es).opponent == m.opponent
    ensures Run(m, es).used == m.used && Run(m, es).phase.pose == m.phase.pose
    ensures Run(m, es).phase.holdStart == Hold.Scan(m.phase.holdStart, FramesOf(es), m.phase.pose)
    ensures Run(m, es).phase.countdown == m.phase.countdown - TickCount(es)
    ensures Run(m, es).phase.countdown >= 1
    decreases |es|
  {
    if |es| > 0 {
      QuietTail(es);
      var m1 := Step(m, es[0]);
      if !m1.phase.Playing? {
        InertOutsidePose(m1, es[1..]);
        assert false;
      }
      RunWhilePlaying(m1, es[1..]);
      if es[0].Frame? {
        Hold.ScanAppend(m.phase.holdStart, [es[0].result], FramesOf(es[1..]), m.phase.pose);
      } else {
        assert FramesOf(es) == FramesOf(es[1..]);
      }
    }
  }

  /**
    On a freshly drawn pose, the player scores on event `e` exactly when `e`
    is a qualifying frame and the qualifying streak just before it began at
    least HOLD_DURATION earlier.
   */
  lemma PlayerPointIffStreak(m: Match, es: seq<Event>, e: Event)
    requires m.phase.Playing? && m.phase.countdown == COUNTDOWN && m.phase.holdStart.None?
    requires Quiet(es)
    requires Run(m, es).phase.Playing?
    ensures Step(Run(m, es), e).player == m.player + 1 <==>
      && e.Frame? && Qualifies(e.result, m.phase.pose)
      && Hold.Streak(FramesOf(es), m.phase.pose) > 0
      && e.result.now - FramesOf(es)[|FramesOf(es)| - Hold.Streak(FramesOf(es), m.phase.pose)].now >= HOLD_DURATION
  {
    RunWhilePlaying(m, es);
    if e.Frame? {
      Hold.CompletesIffStreak(FramesOf(es), e.result, m.phase.pose);
    }
  }

  /**
    On a freshly drawn pose, the opponent scores exactly on the fifth tick
    (if the player has not scored first), and the player's score stays put.
   */
  lemma OpponentPointOnFifthTick(m: Match, es: seq<Event>, e: Event)
    requires m.phase.Playing? && m.phase.countdown == COUNTDOWN
    requires Quiet(es)
    requires Run(m, es).phase.Playing?
    ensures TickCount(es) < COUNTDOWN
    ensures Step(Run(m, es), e).opponent == m.opponent + 1 <==> e.Tick? && TickCount(es) == COUNTDOWN - 1
    ensures e.Tick? ==> Step(Run(m, es), e).player == m.player
  {
    RunWhilePlaying(m, es);
  }

  lemma {:induction false} RunAppend(m: Match, a: seq<Event>, b: seq<Event>)
    ensures Run(m, a + b) == Run(Run(m, a), b)
    decreases |a|
  {
    if |a| > 0 {
      assert (a + b)[0] == a[0];
      assert (a + b)[1..] == a[1..] + b;
      RunAppend(Step(m, a[0]), a[1..], b);
    } else {
      assert a + b == b;
    }
  }

  /** Two confident frames of the pose's own name, at `t` and 2100 ms later. */
  function HeldFrames(p: Pose, t: Millis): seq<Event> {
    [Frame(Classification(Name(p), 0.9, t)), Frame(Classification(Name(p), 0.9, t + 2100))]
  }

  const FiveTicks: seq<Event> := [Tick, Tick, Tick, Tick, Tick]

  lemma HeldPoint(m: Match, p: Pose, t: Millis)
    requires m.phase == Playing(p, COUNTDOWN, None)
    ensures Run(m, HeldFrames(p, t)) == m.(player := m.player + 1, phase := Paused)
  {
    var es := HeldFrames(p, t);
    NamesAreLowerWords(p);
    assert Qualifies(es[0].result, p) && Qualifies(es[1].result, p);
    var m1 := m.(phase := Playing(p, COUNTDOWN, Some(t)));
    assert Step(m, es[0]) == m1;
    assert Step(m1, es[1]) == m.(player := m.player + 1, phase := Paused);
    assert es[1..] == [es[1]] && [es[1]][1..] == [];
    assert Run(m1, es[1..]) == Run(Step(m1, es[1]), []);
  }

  lemma TimedOutPoint(m: Match)
    requires m.phase.Playing? && m.phase.countdown == COUNTDOWN
    ensures Run(m, FiveTicks) == m.(opponent := m.opponent + 1, phase := Paused)
  {
    var t := FiveTicks;
    assert t[1..] == [Tick, Tick, Tick, Tick];
    assert t[1..][1..] == [Tick, Tick, Tick];
    assert t[1..][1..][1..] == [Tick, Tick];
    assert t[1..][1..][1..][1..] == [Tick];
    assert t[1..][1..][1..][1..][1..] == [];
  }

  lemma ChainRuns(x: Match, a: seq<Event>, b: seq<Event>, y: Match, z: Match)
    requires Run(x, a) == y && Run(y, b) == z
    ensures Run(x, a + b) == z
  {
    RunAppend(x, a, b);
  }

  lemma DrawZero(n: nat)
    requires n > 0
    ensures Draw(0.0, n) == 0
  {
  }

  /** A Resume with random value 0 draws the first candidate of the pool. */
  lemma ResumeFirstCandidate(x: Match)
    requires x.phase.Paused? && |x.used| > 0
    requires x.player < TOTAL_POSES && x.opponent < TOTAL_POSES
    ensures Run(x, Continue) == x.(used := x.used + [Pool(x.used)[0]], phase := Playing(Pool(x.used)[0], COUNTDOWN, None))
  {
    DrawZero(2);
    assert Continue[1..] == [];
  }

  /** A Resume once a side has three points ends the match. */
  lemma ResumeEnds(x: Match)
    requires x.phase.Paused?
    requires x.player >= TOTAL_POSES || x.opponent >= TOTAL_POSES
    ensures Run(x, Continue) == x.(phase := Over)
  {
    assert Continue[1..] == [];
  }

  const Serve: seq<Event> := [Start(0.0)]
  const Continue: seq<Event> := [Resume(0.0)]

  /** The scenario's first point: the first draw is the pass, and the player holds it. */
  lemma ScenarioWon1()
    ensures Run(Initial, Serve + HeldFrames(Pass, 1000)) == Match(1, 0, [Pass], Paused)
  {
    var m1 := Match(0, 0, [Pass], Playing(Pass, COUNTDOWN, None));
    assert Run(Initial, Serve) == m1 by {
      DrawZero(3);
      assert Serve[1..] == [];
    }
    HeldPoint(m1, Pass, 1000);
    ChainRuns(Initial, Serve, HeldFrames(Pass, 1000), m1, Match(1, 0, [Pass], Paused));
  }

  /** The second point: the spike is drawn and the countdown runs out. */
  lemma ScenarioLost2()
    ensures Run(Initial, Serve + HeldFrames(Pass, 1000) + Continue + FiveTicks) == Match(1, 1, [Pass, Spike], Paused)
  {
    var m2 := Match(1, 0, [Pass], Paused);
    ScenarioWon1();
    WithoutOfAllPoses(Pass);
    ResumeFirstCandidate(m2);
    var m3 := Match(1, 0, [Pass, Spike], Playing(Spike, COUNTDOWN, None));
    ChainRuns(Initial, Serve + HeldFrames(Pass, 1000), Continue, m2, m3);
    TimedOutPoint(m3);
    ChainRuns(Initial, Serve + HeldFrames(Pass, 1000) + Continue, FiveTicks, m3, Match(1, 1, [Pass, Spike], Paused));
  }

  /** The third point: the pass is drawn again and held. */
  lemma ScenarioWon3()
    ensures Run(Initial, Serve + HeldFrames(Pass, 1000) + Continue + FiveTicks + Continue + HeldFrames(Pass, 11200))
         == Match(2, 1, [Pass, Spike, Pass], Paused)
  {
    var m4 := Match(1, 1, [Pass, Spike], Paused);
    var pre := Serve + HeldFrames(Pass, 1000) + Continue + FiveTicks;
    ScenarioLost2();
    WithoutOfAllPoses(Spike);
    ResumeFirstCandidate(m4);
    var m5 := Match(1, 1, [Pass, Spike, Pass], Playing(Pass, COUNTDOWN, None));
    ChainRuns(Initial, pre, Continue, m4, m5);
    HeldPoint(m5, Pass, 11200);
    ChainRuns(Initial, pre + Continue, HeldFrames(Pass, 11200), m5, Match(2, 1, [Pass, Spike, Pass], Paused));
  }

  /**
    Points won, lost, won, won: the player reaches three first and wins,
    and four poses are recorded, one per point, none following itself.
   */
  lemma PlayerWinsScenario()
    ensures var es := Serve + HeldFrames(Pass, 1000) + Continue + FiveTicks + Continue + HeldFrames(Pass, 11200)
                      + Continue + HeldFrames(Spike, 15000) + Continue;
            var m := Run(Initial, es);
            && m.phase == Over && Winner(m) == Some(Player)
            && m.player == 3 && m.opponent == 1
            && m.used == [Pass, Spike, Pass, Spike]
  {
    var pre := Serve + HeldFrames(Pass, 1000) + Continue + FiveTicks + Continue + HeldFrames(Pass, 11200);
    var m6 := Match(2, 1, [Pass, Spike, Pass], Paused);
    ScenarioWon3();
    WithoutOfAllPoses(Pass);
    ResumeFirstCandidate(m6);
    var m7 := Match(2, 1, [Pass, Spike, Pass, Spike], Playing(Spike, COUNTDOWN, None));
    ChainRuns(Initial, pre, Continue, m6, m7);
    HeldPoint(m7, Spike, 15000);
    var m8 := Match(3, 1, [Pass, Spike, Pass, Spike], Paused);
    ChainRuns(Initial, pre + Continue, HeldFrames(Spike, 15000), m7, m8);
    ResumeEnds(m8);
    ChainRuns(Initial, pre + Continue + HeldFrames(Spike, 15000), Continue, m8, m8.(phase := Over));
  }
}

=== FILE: poses.dfy ===
/**
  The shared vocabulary of the pose trainer: the three volleyball poses,
  the policy constants, the classification result the external classifier
  delivers, the "qualifying frame" test used by both the practice and the
  match flow, and the random draw used to pick match poses.
 */
module Poses {

  datatype Option<+T> = None | Some(value: T)

  /** The three trained poses, in training order. */
  datatype Pose = Pass | Spike | Block

  /** A wall-clock reading in milliseconds since the epoch; `Date.now()` is always positive. */
  type Millis = t: int | t > 0 witness 1

  /** A value returned by `Math.random()`: at least 0 and strictly below 1. */
  type UnitInterval = u: real | 0.0 <= u < 1.0 witness 0.0

  /** How long a qualifying pose must be held, in milliseconds. */
  const HOLD_DURATION: int := 2000

  /** A classification only counts when its confidence is strictly above this. */
  const CONFIDENCE_THRESHOLD: real := 0.7

  /** The countdown starts here and loses one per one-second tick. */
  const COUNTDOWN: int := 5

  /** Points needed to end a match. */
  const TOTAL_POSES: nat := 3

  /** The pool the match draws from, in the source's order. */
  const MatchPoses: seq<Pose> := [Pass, Spike, Block]

  /** The label the classifier uses for a pose. */
  function Name(p: Pose): string {
    match p
    case Pass => "pass"
    case Spike => "spike"
    case Block => "block"
  }

  /** Position of a pose in the training order. */
  function Index(p: Pose): nat {
    match p
    case Pass => 0
    case Spike => 1
    case Block => 2
  }

  /** The scene offered after a successful practice of a pose. */
  function NextScene(p: Pose): string {
    match p
    case Pass => "spikeLearn"
    case Spike => "blockLearn"
    case Block => "match"
  }

  /** The remedial tip shown when a practice challenge expires. */
  function Tip(p: Pose): string {
    match p
    case Pass => "Not quite there yet. Try to lower yourself a little more and stretch your arms better."
    case Spike => "Almost! Try to raise your arm a little higher and open your upper body more."
    case Block => "Not quite. Make sure both arms are at the same height and not too far back."
  }

  function LowerChar(c: char): char {
    if 'A' <= c <= 'Z' then (c as int + 32) as char else c
  }

  function UpperChar(c: char): char {
    if 'a' <= c <= 'z' then (c as int - 32) as char else c
  }

  /** `toLowerCase` on the ASCII letters. */
  function Lower(s: string): string {
    seq(|s|, i requires 0 <= i < |s| => LowerChar(s[i]))
  }

  /** The top-1 result of one classification, stamped with the time it was handled. */
  datatype Classification = Classification(name: string, confidence: real, now: Millis)

  /**
    A frame qualifies for a target when its name equals the target's name
    ignoring case and its confidence is strictly above the threshold.
   */
  predicate Qualifies(c: Classification, target: Pose) {
    Lower(c.name) == Lower(Name(target)) && c.confidence > CONFIDENCE_THRESHOLD
  }

  predicate IsLowerWord(s: string) {
    forall i :: 0 <= i < |s| ==> 'a' <= s[i] <= 'z'
  }

  lemma NamesAreLowerWords(p: Pose)
    ensures IsLowerWord(Name(p))
    ensures Lower(Name(p)) == Name(p)
  {
  }

  /**
    A pose accepts exactly the classifier names that spell its own name
    with any mix of upper- and lower-case letters.
   */
  lemma AcceptedLabels(name: string, p: Pose)
    ensures Lower(name) == Lower(Name(p))
      <==> |name| == |Name(p)|
           && forall i :: 0 <= i < |name| ==> name[i] == Name(p)[i] || name[i] == UpperChar(Name(p)[i])
  {
    var n := Name(p);
    NamesAreLowerWords(p);
    if Lower(name) == n {
      forall i | 0 <= i < |name|
        ensures name[i] == n[i] || name[i] == UpperChar(n[i])
      {
        assert LowerChar(name[i]) == n[i];
      }
    }
    if |name| == |n| && forall i :: 0 <= i < |name| ==> name[i] == n[i] || name[i] == UpperChar(n[i]) {
      forall i | 0 <= i < |name|
        ensures Lower(name)[i] == n[i]
      {
        assert 'a' <= n[i] <= 'z';
      }
    }
  }

  /** The threshold is strict: a confidence of exactly 0.7 never qualifies. */
  lemma ThresholdIsStrict(name: string, now: Millis, p: Pose)
    ensures !Qualifies(Classification(name, CONFIDENCE_THRESHOLD, now), p)
    ensures Qualifies(Classification(Name(p), 0.71, now), p)
  {
    NamesAreLowerWords(p);
  }

  /** No label qualifies for two different poses. */
  lemma QualifiesForOnePose(c: Classification, p: Pose, q: Pose)
    requires Qualifies(c, p) && Qualifies(c, q)
    ensures p == q
  {
    NamesAreLowerWords(p);
    NamesAreLowerWords(q);
  }

  /** `Math.floor(Math.random() * n)`: an index into a pool of `n` candidates. */
  function Draw(u: UnitInterval, n: nat): (k: nat)
    requires n > 0
    ensures k < n
  {
    var x := u * (n as real);
    assert 0.0 <= x < n as real;
    x.Floor
  }

  /**
    Every index is drawn by exactly the values of `u` in an interval of
    width 1/n, so each of the `n` candidates is reachable and equally likely.
   */
  lemma DrawInterval(u: UnitInterval, n: nat, k: nat)
    requires n > 0
    ensures Draw(u, n) == k <==> (k as real) / (n as real) <= u < (k as real + 1.0) / (n as real)
  {
    var N := n as real;
    var x := u * N;
    assert (k as real) / N <= u <==> k as real <= x;
    assert u < (k as real + 1.0) / N <==> x < k as real + 1.0;
  }

  /** Every index below `n` is drawn by some random value. */
  lemma DrawReaches(n: nat, k: nat)
    requires k < n
    ensures exists u: UnitInterval :: Draw(u, n) == k
  {
    var N := n as real;
    var u := (k as real) / N;
    assert u * N == k as real;
    assert 0.0 <= u < 1.0;
    assert Draw(u, n) == k;
  }
}

=== FILE: practice.dfy ===
/**
  The practice flow: one timed hold challenge for the pose of the current
  practice scene. A success marks the pose completed in the training
  progress; when the five-tick countdown runs out the challenge expires and
  the pose's tip is shown, with a retry that starts the same challenge again.
 */
module Practice {
  import opened Poses
  import Hold
  import opened Training

  /** Where the current challenge stands; the pose checks are on exactly while it is Running. */
  datatype Phase =
    | Idle
    | Running(countdown: int, holdStart: Option<Millis>)
    | Succeeded
    | Expired

  datatype Session = Session(progress: Progress, target: Pose, phase: Phase)

  datatype Event =
    | Begin(pose: Pose)              // a practice scene opens, or "Try again" / "Practice again"
    | Frame(result: Classification)  // the top-1 result for one video frame
    | Tick                           // the one-second countdown interval fires

  /** What the status bar, the results line and the feedback panel are told. */
  datatype Signal =
    | Ignored
    | Holding(verdict: Hold.Verdict)
    | Count(remaining: int)
    | Done(next: string)
    | TimeUp(tip: string)

  const Initial: Session := Session(Fresh, Pass, Idle)

  /** A challenge for `p` with a full countdown and no hold in progress. */
  function StartChallenge(s: Session, p: Pose): Session {
    Session(s.progress, p, Running(COUNTDOWN, None))
  }

  function OnFrame(s: Session, c: Classification): Session
    requires s.phase.Running?
  {
    var q := Qualifies(c, s.target);
    if Hold.Judge(s.phase.holdStart, q, c.now) == Hold.Complete then
      Session(MarkCompleted(s.progress, s.target), s.target, Succeeded)
    else
      s.(phase := s.phase.(holdStart := Hold.Next(s.phase.holdStart, q, c.now)))
  }

  function OnTick(s: Session): Session
    requires s.phase.Running?
  {
    var remaining := s.phase.countdown - 1;
    if remaining <= 0 then s.(phase := Expired)
    else s.(phase := s.phase.(countdown := remaining))
  }

  /**
    One event. Progress only grows, and it changes only when a frame
    completes a running challenge, by marking that challenge's pose.
   */
  function Step(s: Session, e: Event): (r: Session)
    ensures Extends(r.progress, s.progress)
    ensures r.progress != s.progress ==> e.Frame? && s.phase.Running? && r.phase.Succeeded?
    ensures s.phase.Running? && r.phase.Succeeded? ==> r.progress == MarkCompleted(s.progress, s.target)
    ensures r.phase.Succeeded? && !s.phase.Succeeded? <==> e.Frame? && s.phase.Running? && r.phase.Succeeded?
    ensures !e.Begin? && !s.phase.Running? ==> r == s
    ensures e.Begin? ==> r.progress == s.progress && r.target == e.pose && r.phase == Running(COUNTDOWN, None)
  {
    match e
    case Begin(p) => StartChallenge(s, p)
    case Frame(c) => if s.phase.Running? then OnFrame(s, c) else s
    case Tick => if s.phase.Running? then OnTick(s) else s
  }

  /** The feedback one event produces, in step with the transition it causes. */
  function Emit(s: Session, e: Event): (r: Signal)
    ensures r.Done? <==> s.phase.Running? && Step(s, e).phase.Succeeded?
    ensures r.Done? ==> r.next == NextScene(s.target)
    ensures r.TimeUp? <==> s.phase.Running? && Step(s, e).phase.Expired?
    ensures r.TimeUp? ==> r.tip == Tip(s.target)
    ensures r.Ignored? <==> !e.Begin? && !s.phase.Running?
  {
    match e
    case Begin(p) => Count(COUNTDOWN)
    case Frame(c) =>
      if !s.phase.Running? then Ignored
      else
        var v := Hold.Judge(s.phase.holdStart, Qualifies(c, s.target), c.now);
        if v == Hold.Complete then Done(NextScene(s.target)) else Holding(v)
    case Tick =>
      if !s.phase.Running? then Ignored
      else if s.phase.countdown - 1 <= 0 then TimeUp(Tip(s.target))
      else Count(s.phase.countdown - 1)
  }

  function Run(s: Session, es: seq<Event>): Session
    decreases |es|
  {
    if |es| == 0 then s else Run(Step(s, es[0]), es[1..])
  }

  predicate NoBegin(es: seq<Event>) {
    forall i :: 0 <= i < |es| ==> !es[i].Begin?
  }

  /** The classification results among the events, in order. */
  function FramesOf(es: seq<Event>): seq<Classification>
    decreases |es|
  {
    if |es| == 0 then []
    else (if es[0].Frame? then [es[0].result] else []) + FramesOf(es[1..])
  }

  function TickCount(es: seq<Event>): nat
    decreases |es|
  {
    if |es| == 0 then 0
    else (if es[0].Tick? then 1 else 0) + TickCount(es[1..])
  }

  /** Once a challenge has succeeded or expired, nothing but a new start changes the session. */
  lemma {:induction false} TerminalInert(s: Session, es: seq<Event>)
    requires !s.phase.Running?
    requires NoBegin(es)
    ensures Run(s, es) == s
    decreases |es|
  {
    if |es| > 0 {
      assert !es[0].Begin?;
      assert NoBegin(es[1..]) by {
        forall i | 0 <= i < |es[1..]| ensures !es[1..][i].Begin? {
          assert es[1..][i] == es[i + 1];
        }
      }
      TerminalInert(s, es[1..]);
    }
  }

  /**
    While a challenge keeps running, its hold start is the hold tracker's
    reading of the frames seen so far, its countdown has lost exactly one
    per tick, and it never reaches zero.
   */
  lemma {:induction false} RunWhileRunning(s: Session, es: seq<Event>)
    requires s.phase.Running? && s.phase.countdown >= 1
    requires NoBegin(es)
    requires Run(s, es).phase.Running?
    ensures Run(s, es).progress == s.progress
    ensures Run(s, es).target == s.target
    ensures Run(s, es).phase.holdStart == Hold.Scan(s.phase.holdStart, FramesOf(es), s.target)
    ensures Run(s, es).phase.countdown == s.phase.countdown - TickCount(es)
    ensures Run(s, es).phase.countdown >= 1
    decreases |es|
  {
    if |es| > 0 {
      var s1 := Step(s, es[0]);
      assert !es[0].Begin?;
      assert NoBegin(es[1..]) by {
        forall i | 0 <= i < |es[1..]| ensures !es[1..][i].Begin? {
          assert es[1..][i] == es[i + 1];
        }
      }
      if !s1.phase.Running? {
        TerminalInert(s1, es[1..]);
        assert false;
      }
      RunWhileRunning(s1, es[1..]);
      if es[0].Frame? {
        Hold.ScanAppend(s.phase.holdStart, [es[0].result], FramesOf(es[1..]), s.target);
      } else {
        assert FramesOf(es) == FramesOf(es[1..]);
      }
    }
  }

  /**
    A freshly started challenge succeeds on event `e` exactly when `e` is a
    qualifying frame and the qualifying streak of frames just before it
    began at least HOLD_DURATION earlier; ticks in between do not matter.
   */
  lemma SuccessIffStreak(s: Session, es: seq<Event>, e: Event)
    requires s.phase == Running(COUNTDOWN, None)
    requires NoBegin(es)
    requires Run(s, es).phase.Running?
    ensures Step(Run(s, es), e).phase.Succeeded? <==>
      && e.Frame? && Qualifies(e.result, s.target)
      && Hold.Streak(FramesOf(es), s.target) > 0
      && e.result.now - FramesOf(es)[|FramesOf(es)| - Hold.Streak(FramesOf(es), s.target)].now >= HOLD_DURATION
  {
    RunWhileRunning(s, es);
    if e.Frame? {
      Hold.CompletesIffStreak(FramesOf(es), e.result, s.target);
    }
  }

  /**
    A freshly started challenge is still running after at most four ticks,
    and expires on the fifth, whatever frames arrive in between.
   */
  lemma ExpiryOnFifthTick(s: Session, es: seq<Event>, e: Event)
    requires s.phase.Running? && s.phase.countdown == COUNTDOWN
    requires NoBegin(es)
    requires Run(s, es).phase.Running?
    ensures TickCount(es) < COUNTDOWN
    ensures Step(Run(s, es), e).phase.Expired? <==> e.Tick? && TickCount(es) == COUNTDOWN - 1
  {
    RunWhileRunning(s, es);
  }

  /** Along any sequence of events, no completed pose is ever forgotten. */
  lemma {:induction false} ProgressMonotone(s: Session, es: seq<Event>)
    ensures Extends(Run(s, es).progress, s.progress)
    decreases |es|
  {
    if |es| > 0 {
      ProgressMonotone(Step(s, es[0]), es[1..]);
    }
  }

  /** The pass pose held at high confidence for 2100 ms completes the pass challenge. */
  lemma PassHeldScenario()
    ensures var s := StartChallenge(Initial, Pass);
            var es := [Frame(Classification("pass", 0.9, 1000)), Frame(Classification("pass", 0.9, 3100))];
            Run(s, es).phase == Succeeded && Completed(Run(s, es).progress, Pass)
            && Emit(Run(s, es[..1]), es[1]) == Done("spikeLearn")
  {
    var s := StartChallenge(Initial, Pass);
    var es := [Frame(Classification("pass", 0.9, 1000)), Frame(Classification("pass", 0.9, 3100))];
    assert es[1..][1..] == [];
    assert es[..1][1..] == [];
  }

  lemma {:induction false} RunAppend(s: Session, a: seq<Event>, b: seq<Event>)
    ensures Run(s, a + b) == Run(Run(s, a), b)
    decreases |a|
  {
    if |a| > 0 {
      assert (a + b)[0] == a[0];
      assert (a + b)[1..] == a[1..] + b;
      RunAppend(Step(s, a[0]), a[1..], b);
    } else {
      assert a + b == b;
    }
  }

  /** A block frame followed by a tick, during a spike challenge with no hold in progress. */
  lemma BlockThenTick(t: Session, c: int)
    requires t.target == Spike && t.phase == Running(c, None) && c >= 2
    ensures Run(t, [Frame(Classification("block", 0.9, 1000)), Tick]) == t.(phase := Running(c - 1, None))
  {
    var b := Frame(Classification("block", 0.9, 1000));
    assert !Qualifies(b.result, Spike) by {
      assert Lower("block")[0] == 'b';
      assert Lower(Name(Spike))[0] == 's';
    }
    assert Step(t, b) == t;
    assert [b, Tick][1..] == [Tick];
    assert [Tick][1..] == [];
  }

  /** Showing the block pose throughout a spike challenge lets it expire, with the spike tip, on the fifth tick. */
  lemma WrongPoseScenario()
    ensures var s := StartChallenge(Initial, Spike);
            var bt := [Frame(Classification("block", 0.9, 1000)), Tick];
            var es := bt + bt + bt + bt;
            && Run(s, es).phase == Running(1, None)
            && Step(Run(s, es), Tick).phase == Expired
            && Emit(Run(s, es), Tick) == TimeUp(Tip(Spike))
  {
    var s := StartChallenge(Initial, Spike);
    var bt := [Frame(Classification("block", 0.9, 1000)), Tick];
    BlockThenTick(s, 5);
    var s4 := Run(s, bt);
    BlockThenTick(s4, 4);
    var s3 := Run(s4, bt);
    BlockThenTick(s3, 3);
    var s2 := Run(s3, bt);
    BlockThenTick(s2, 2);
    RunAppend(s, bt, bt);
    RunAppend(s, bt + bt, bt);
    RunAppend(s, bt + bt + bt, bt);
  }
}

=== FILE: timers.dfy ===
/**
  The countdown intervals of practice and of the match. Every start of a
  challenge or match pose installs a one-second interval and keeps only the
  newest handle; when an interval's own countdown reaches zero it clears the
  interval named by that shared handle and switches the pose checks off. In
  the match, that expiry also gives the opponent a point.

  `AsWritten` installs the new interval without clearing the previous one,
  as the source does when a practice scene is entered while a challenge is
  still counting down, or a match is replayed while a pose is running.
  `Corrected` cancels the previous interval first, which is the behaviour the
  single-timer `Practice` and `MatchMode` models assume.
 */
module Timers {
  import opened Poses

  datatype Interval = Interval(countdown: int, live: bool)

  /** The checking flag, every interval ever installed, and the one handle the code keeps. */
  datatype TimerState = TimerState(checking: bool, intervals: seq<Interval>, handle: nat)

  const NoTimers: TimerState := TimerState(false, [], 0)

  function Cancel(iv: seq<Interval>, h: nat): (r: seq<Interval>)
    ensures |r| == |iv|
    ensures h < |iv| ==> !r[h].live
    ensures forall i :: 0 <= i < |iv| && i != h ==> r[i] == iv[i]
  {
    if h < |iv| then iv[h := iv[h].(live := false)] else iv
  }

  /** Starting a challenge as the source does: a new interval, the old one left running. */
  function BeginAsWritten(t: TimerState): TimerState {
    TimerState(true, t.intervals + [Interval(COUNTDOWN, true)], |t.intervals|)
  }

  /** Starting a challenge with the previous interval cancelled first. */
  function BeginCorrected(t: TimerState): TimerState {
    TimerState(true, Cancel(t.intervals, t.handle) + [Interval(COUNTDOWN, true)], |t.intervals|)
  }

  /** Interval `i` fires: it counts down, and at zero clears the interval the shared handle names. */
  function Fire(t: TimerState, i: nat): TimerState
    requires i < |t.intervals|
  {
    if !t.intervals[i].live then t
    else
      var c := t.intervals[i].countdown - 1;
      var iv := t.intervals[i := Interval(c, true)];
      if c <= 0 then TimerState(false, Cancel(iv, t.handle), t.handle)
      else t.(intervals := iv)
  }

  /** Only the interval of the current challenge is live. */
  predicate OnlyCurrentLive(t: TimerState) {
    && (|t.intervals| > 0 ==> t.handle < |t.intervals|)
    && forall i :: 0 <= i < |t.intervals| && t.intervals[i].live ==> i == t.handle
  }

  /**
    With the previous interval cancelled on every start, at most the current
    challenge's interval is live, whatever fires; so the checks are switched
    off only by the current challenge's own countdown.
   */
  lemma CorrectedKeepsOneInterval(t: TimerState, i: nat)
    requires OnlyCurrentLive(t)
    ensures OnlyCurrentLive(BeginCorrected(t))
    ensures i < |t.intervals| ==> OnlyCurrentLive(Fire(t, i))
    ensures i < |t.intervals| && i != t.handle ==> Fire(t, i) == t
  {
  }

  /**
    As written: a pass challenge starts, and between its interval's second
    and third firings the practice scene is entered again. The new challenge
    starts one second after the scene is entered, once the stale interval has
    fired three times, and the new interval's first firing falls between the
    stale interval's fourth and fifth: stale, new, stale. On that fifth firing the stale interval reaches zero, cancels
    the new challenge's interval (whose own countdown is at four) and
    switches the checks off, while the stale interval itself stays live.
   */
  lemma StaleIntervalEndsNewChallenge()
    ensures var t1 := Fire(Fire(Fire(BeginAsWritten(NoTimers), 0), 0), 0);
            var t2 := Fire(Fire(Fire(BeginAsWritten(t1), 0), 1), 0);
            && t2.handle == 1
            && !t2.checking
            && t2.intervals[1] == Interval(COUNTDOWN - 1, false)
            && t2.intervals[0].live
            && !OnlyCurrentLive(t2)
  {
    var t0 := BeginAsWritten(NoTimers);
    assert t0 == TimerState(true, [Interval(5, true)], 0);
    var t1 := Fire(Fire(Fire(t0, 0), 0), 0);
    assert t1 == TimerState(true, [Interval(2, true)], 0);
    var t1b := BeginAsWritten(t1);
    assert t1b == TimerState(true, [Interval(2, true), Interval(5, true)], 1);
    var t2a := Fire(t1b, 0);
    assert t2a == TimerState(true, [Interval(1, true), Interval(5, true)], 1);
    var t2b := Fire(t2a, 1);
    assert t2b == TimerState(true, [Interval(1, true), Interval(4, true)], 1);
    var t2 := Fire(t2b, 0);
    assert t2 == TimerState(false, [Interval(0, true), Interval(4, false)], 1);
  }

  /**
    The corrected start, on the same events, leaves the new challenge running
    with its interval live and its countdown lowered only by its own firing.
   */
  lemma CorrectedKeepsNewChallenge()
    ensures var t1 := Fire(Fire(Fire(BeginCorrected(NoTimers), 0), 0), 0);
            var t2 := Fire(Fire(Fire(BeginCorrected(t1), 0), 1), 0);
            && t2.checking
            && t2.intervals[1] == Interval(COUNTDOWN - 1, true)
            && OnlyCurrentLive(t2)
  {
    var t0 := BeginCorrected(NoTimers);
    assert t0 == TimerState(true, [Interval(5, true)], 0);
    var t1 := Fire(Fire(Fire(t0, 0), 0), 0);
    assert t1 == TimerState(true, [Interval(2, true)], 0);
    var t1b := BeginCorrected(t1);
    assert t1b == TimerState(true, [Interval(2, false), Interval(5, true)], 1);
    assert Fire(t1b, 0) == t1b;
    var t2b := Fire(t1b, 1);
    assert t2b == TimerState(true, [Interval(2, false), Interval(4, true)], 1);
  }

  /** The match's countdown intervals, and the opponent's score that each expiry raises. */
  datatype MatchClock = MatchClock(timers: TimerState, opponent: nat)

  /** Interval `i` fires during a match: as in practice, and an expiry also scores for the opponent. */
  function FireMatch(m: MatchClock, i: nat): (r: MatchClock)
    requires i < |m.timers.intervals|
    ensures r.timers == Fire(m.timers, i)
    ensures r.opponent == m.opponent + 1 <==> m.timers.intervals[i].live && m.timers.intervals[i].countdown <= 1
    ensures r.opponent == m.opponent || r.opponent == m.opponent + 1
  {
    var iv := m.timers.intervals[i];
    MatchClock(Fire(m.timers, i), if iv.live && iv.countdown - 1 <= 0 then m.opponent + 1 else m.opponent)
  }

  /** "Play another match" as the source does it: the score is cleared and the first pose's interval installed, the old one left running. */
  function RestartAsWritten(m: MatchClock): MatchClock {
    MatchClock(BeginAsWritten(m.timers), 0)
  }

  /** The replay with the running interval cancelled first. */
  function RestartCorrected(m: MatchClock): MatchClock {
    MatchClock(BeginCorrected(m.timers), 0)
  }

  /**
    The pause after a point ends: the match completes, clearing the handle's
    interval, once the opponent has three points; otherwise the next pose's
    interval is installed. The player's score is not tracked here.
   */
  function NextPoseClock(m: MatchClock): (r: MatchClock)
    ensures r.opponent == m.opponent
    ensures r.timers.checking <==> m.opponent < TOTAL_POSES
  {
    if m.opponent >= TOTAL_POSES then
      MatchClock(TimerState(false, Cancel(m.timers.intervals, m.timers.handle), m.timers.handle), m.opponent)
    else
      MatchClock(BeginAsWritten(m.timers), m.opponent)
  }

  /**
    As written: a replayed match is restarted again with "Play another match"
    between its first pose's third and fourth seconds. The stale interval's
    fifth firing cancels the new pose and scores for the opponent; it stays
    live and scores again every second, cancelling each pose the pause starts,
    so the opponent of the new match passes three points without any pose
    of that match running out: stale, new, stale, stale, pause ends, stale,
    pause ends, stale.
   */
  lemma StaleMatchIntervalOverscores()
    ensures var m1 := FireMatch(FireMatch(FireMatch(RestartAsWritten(MatchClock(NoTimers, 0)), 0), 0), 0);
            var m2 := FireMatch(FireMatch(FireMatch(RestartAsWritten(m1), 0), 1), 0);
            var m3 := FireMatch(NextPoseClock(FireMatch(NextPoseClock(FireMatch(m2, 0)), 0)), 0);
            && m2.opponent == 1
            && m3.opponent == TOTAL_POSES + 1
            && m3.timers.intervals[0].live
  {
    var m0 := RestartAsWritten(MatchClock(NoTimers, 0));
    assert m0 == MatchClock(TimerState(true, [Interval(5, true)], 0), 0);
    var m1 := FireMatch(FireMatch(FireMatch(m0, 0), 0), 0);
    assert m1 == MatchClock(TimerState(true, [Interval(2, true)], 0), 0);
    var r := RestartAsWritten(m1);
    assert r == MatchClock(TimerState(true, [Interval(2, true), Interval(5, true)], 1), 0);
    var a := FireMatch(r, 0);
    assert a == MatchClock(TimerState(true, [Interval(1, true), Interval(5, true)], 1), 0);
    var b := FireMatch(a, 1);
    assert b == MatchClock(TimerState(true, [Interval(1, true), Interval(4, true)], 1), 0);
    var m2 := FireMatch(b, 0);
    assert m2 == MatchClock(TimerState(false, [Interval(0, true), Interval(4, false)], 1), 1);
    var c := FireMatch(m2, 0);
    assert c == MatchClock(TimerState(false, [Interval(-1, true), Interval(4, false)], 1), 2);
    var d := NextPoseClock(c);
    assert d == MatchClock(TimerState(true, [Interval(-1, true), Interval(4, false), Interval(5, true)], 2), 2);
    var e := FireMatch(d, 0);
    assert e == MatchClock(TimerState(false, [Interval(-2, true), Interval(4, false), Interval(5, false)], 2), 3);
    var f := NextPoseClock(e);
    assert f == MatchClock(TimerState(false, [Interval(-2, true), Interval(4, false), Interval(5, false)], 2), 3);
    var m3 := FireMatch(f, 0);
    assert m3 == MatchClock(TimerState(false, [Interval(-3, true), Interval(4, false), Interval(5, false)], 2), 4);
  }

  /**
    With the running interval cancelled on every replay, only the current
    pose's interval is live, a stale firing changes neither the clock nor the
    score, and the opponent scores only when the current pose runs out.
   */
  lemma CorrectedReplayKeepsOneInterval(m: MatchClock, i: nat)
    requires OnlyCurrentLive(m.timers)
    ensures OnlyCurrentLive(RestartCorrected(m).timers)
    ensures RestartCorrected(m).opponent == 0
    ensures i < |m.timers.intervals| ==> OnlyCurrentLive(FireMatch(m, i).timers)
    ensures i < |m.timers.intervals| && i != m.timers.handle ==> FireMatch(m, i) == m
    ensures i < |m.timers.intervals| && FireMatch(m, i).opponent != m.opponent ==> i == m.timers.handle
  {
    CorrectedKeepsOneInterval(m.timers, i);
  }

  /** The corrected replay, on the same firings, keeps the new match's first pose running and its score at zero. */
  lemma CorrectedReplayKeepsScore()
    ensures var m1 := FireMatch(FireMatch(FireMatch(RestartCorrected(MatchClock(NoTimers, 0)), 0), 0), 0);
            var m2 := FireMatch(FireMatch(FireMatch(RestartCorrected(m1), 0), 1), 0);
            && m2.opponent == 0
            && m2.timers.checking
            && m2.timers.intervals[1] == Interval(COUNTDOWN - 1, true)
            && OnlyCurrentLive(m2.timers)
  {
    var m0 := RestartCorrected(MatchClock(NoTimers, 0));
    assert m0 == MatchClock(TimerState(true, [Interval(5, true)], 0), 0);
    var m1 := FireMatch(FireMatch(FireMatch(m0, 0), 0), 0);
    assert m1 == MatchClock(TimerState(true, [Interval(2, true)], 0), 0);
    var r := RestartCorrected(m1);
    assert r == MatchClock(TimerState(true, [Interval(2, false), Interval(5, true)], 1), 0);
    assert FireMatch(r, 0) == r;
    var b := FireMatch(r, 1);
    assert b == MatchClock(TimerState(true, [Interval(2, false), Interval(4, true)], 1), 0);
  }
}

=== FILE: training.dfy ===
/**
  Training progress: which poses have been completed in practice, which
  training-hub tiles that unlocks, and which tile carries the "active" badge.
 */
module Training {
  import opened Poses

  /** One completion flag per pose; all start false and live for the session. */
  datatype Progress = Progress(pass: bool, spike: bool, block: bool)

  const Fresh: Progress := Progress(false, false, false)

  function Completed(pr: Progress, p: Pose): bool {
    match p
    case Pass => pr.pass
    case Spike => pr.spike
    case Block => pr.block
  }

  /** Records a successful practice of `p`; no other flag moves. */
  function MarkCompleted(pr: Progress, p: Pose): (r: Progress)
    ensures Completed(r, p)
    ensures forall q :: q != p ==> Completed(r, q) == Completed(pr, q)
  {
    match p
    case Pass => pr.(pass := true)
    case Spike => pr.(spike := true)
    case Block => pr.(block := true)
  }

  /** `later` has every completion `earlier` has. */
  predicate Extends(later: Progress, earlier: Progress) {
    forall q :: Completed(earlier, q) ==> Completed(later, q)
  }

  /** The pose that must be completed before `p`'s tile opens, if any. */
  function Prerequisite(p: Pose): Option<Pose> {
    match p
    case Pass => None
    case Spike => Some(Pass)
    case Block => Some(Spike)
  }

  /** Whether the tile of `p` is open in the training hub. */
  predicate Unlocked(pr: Progress, p: Pose) {
    match p
    case Pass => true
    case Spike => pr.pass
    case Block => pr.spike
  }

  /** The tile that carries the "active" badge. */
  function ActivePose(pr: Progress): (r: Pose)
    ensures Unlocked(pr, r)
    ensures forall q :: Unlocked(pr, q) ==> Index(q) <= Index(r)
  {
    if pr.spike then Block
    else if pr.pass then Spike
    else Pass
  }

  /** The hub's tile rule is a linear gate: a tile opens exactly when its predecessor is completed. */
  lemma UnlockedIffPrerequisiteDone(pr: Progress, p: Pose)
    ensures Unlocked(pr, p) <==> (Prerequisite(p).None? || Completed(pr, Prerequisite(p).value))
    ensures Prerequisite(p).Some? ==> Index(Prerequisite(p).value) + 1 == Index(p)
  {
  }

  /** Marking a completion only ever adds to the progress. */
  lemma MarkExtends(pr: Progress, p: Pose)
    ensures Extends(MarkCompleted(pr, p), pr)
    ensures MarkCompleted(MarkCompleted(pr, p), p) == MarkCompleted(pr, p)
  {
  }

  /** More progress never locks a tile and never moves the badge backwards. */
  lemma UnlockMonotone(earlier: Progress, later: Progress)
    requires Extends(later, earlier)
    ensures forall q :: Unlocked(earlier, q) ==> Unlocked(later, q)
    ensures Index(ActivePose(earlier)) <= Index(ActivePose(later))
  {
    assert Completed(earlier, Pass) ==> Completed(later, Pass);
    assert Completed(earlier, Spike) ==> Completed(later, Spike);
  }

  /** Completing a pose opens the tile of the pose that follows it in training order. */
  lemma CompletingOpensNext(pr: Progress, p: Pose, q: Pose)
    requires Prerequisite(q) == Some(p)
    ensures Unlocked(MarkCompleted(pr, p), q)
  {
  }
}
